=== FILE: README.md ===
# DeviceProxy response correlation, modelled in Dafny

This project models the command/response correlation state machine of `DeviceProxy`
(device_proxy.py). The proxy drives a USB cellular modem with AT commands. A caller writes a
command and then waits. A listener thread hands each USB read, decoded and `strip()`ped, to a
handler. The handler clears the `waiting` flag when that text ends the current exchange under
the current `mode`. One read can hold several CRLF-separated modem lines; it is still handled
as one message, so a read such as `+CMGL: ...\r\n\r\nOK` is not `"OK"`. The model keeps this:
one item of an inbound script is one read, an arbitrary string.

The model has five modules:

- `Wrappers`: the `Option` type. It stands for the Python attributes that may be `None`, and
  for the text-sending flag, which `__init__` never assigns.
- `Text`: Python's substring test `'OK' in message`.
- `Handler`: the state record (`mode`, `waiting`, `result`, `sendingText`), the per-line
  transition `handle_incoming_message`, and `set_text_sending_status`. The mode tags are
  compared as strings, as in the source. A `mode` of `None`, or any other tag, matches no
  branch.
- `Driver`: `execute_mode`, made sequential. An exchange sets the mode, raises `waiting` and
  writes the command. It then feeds a finite script of inbound lines through the handler
  until `waiting` is false, and returns the final state, the writes and the unconsumed lines.
  An exchange that would never return in the source ends as `Hung`. This happens when the
  script runs out (the source would poll forever), or when the handler raises (the listener
  thread dies, so `waiting` is never cleared). `ExecuteMode` is the same exchange written as
  the polling loop.
- `Commands`: `check_device_status`, `check_signal`, `send_message` and `read_messages`. Each
  is a fixed series of exchanges over a `Session`: the state, the inbound script, and the
  trace of writes. A write in the trace is either `Issued(payload)`, written by a command
  sequence, or `Escaped`, the SUB (0x1A) that the handler writes for a stale prompt.
  `IssuedPayloads(trace)` lists the issued payloads and leaves out the handler's escapes.
- `Scenarios`: concrete exchanges over fixed scripts.

Payloads are kept exactly as the source writes them. For example, `AT+CMGR=1` has no
trailing carriage return, and the SMS body is followed by SUB.

Behaviours of the code a reader might not expect:

- An exchange returns the `result` attribute, and only a `CheckOk` exchange sets it. `result` is never reset, so an `IncludeOk`, `WaitForInput` or
  `AnyMessage` exchange returns whatever the previous `CheckOk` exchange left.
- `mode` is never cleared after an exchange.
- The stale-prompt check sends SUB for every `>` line while the flag is false. It does this
  whatever the mode, and also while an exchange is waiting.
- A `>` line that arrives before the flag was ever assigned raises `AttributeError`. The
  listener catches only USB errors, so this ends the listener thread.
- An exchange has no timeout: `execute_mode` polls until `waiting` is cleared.

## Model

| member | source | states |
|---|---|---|
| Text.ContainsIff | device_proxy.py:109 | The scan behind `'OK' in message` is true exactly when "OK" occurs at some position of the line. |
| Handler.Initial | device_proxy.py:10-22 | A freshly constructed proxy is not waiting and has no mode and no result. Its flag was never assigned, so a ">" line raises and every other line leaves it unchanged with no write. |
| Handler.Dispatch | device_proxy.py:101-115 | A line that ends the exchange under the current mode clears `waiting` and records that line's verdict. Any other line changes nothing. `mode` and the flag are never touched. |
| Handler.DispatchModes | device_proxy.py:101-115 | `CheckOk`: "OK" clears `waiting` and sets `result` true, and "ERROR" clears it and sets `result` false. Any other line changes nothing, including a line that only contains "OK". `IncludeOk`: any line containing "OK" clears `waiting` and leaves `result` alone. `WaitForInput`: only ">" clears `waiting`. `AnyMessage`: every line clears it. Any other mode, including `None`, changes nothing. |
| Handler.Handle | device_proxy.py:96-115 | The handler raises exactly when the line is ">" and the flag was never assigned. Otherwise it writes one SUB exactly when the line is ">" and the flag is false, whatever the mode. It never changes `mode` or the flag. `waiting` stays set exactly when it was set and the line does not end the exchange. A line that does not end the exchange leaves the state unchanged. |
| Handler.SetTextSendingStatus | device_proxy.py:117-119 | Assigns the flag and nothing else. Afterwards a ">" line never raises, and it is cancelled with SUB exactly when the new status is false. |
| Driver.Drive | device_proxy.py:92-94 | The polling loop keeps `mode` and the flag. When it returns, `waiting` is false. All of its writes are SUBs, and there are none unless the flag is false. Outside `CheckOk` it never changes `result`. A `CheckOk` wait that returns always holds a boolean result. Only an unassigned flag can kill the listener. |
| Driver.DriveLeavesSuffix | device_proxy.py:92-94 | The lines a returning wait leaves unconsumed are a suffix of its script. |
| Driver.Execute | device_proxy.py:88-94 | `execute_mode` sets `mode` and writes exactly the command first, followed only by handler SUBs. Outside `CheckOk` it returns the `result` held before. A `CheckOk` exchange that returns yields a boolean. |
| Driver.DriveCompletes | device_proxy.py:92-115 | Suppose line k is the first line that ends the exchange, and no line up to k raises. Then the exchange returns right after line k. `waiting` is cleared and line k's verdict is recorded: `Some(line == "OK")` under `CheckOk`, the old `result` otherwise. Nothing else changes. It writes one SUB per ">" up to k when the flag is false, and leaves the lines after k unconsumed. |
| Driver.DriveExhausts | device_proxy.py:92-93 | If no line ends the exchange and none raises, the whole script is consumed and the exchange never returns. |
| Driver.DriveDies | device_proxy.py:96-99 | If the flag was never assigned, the first ">" before any terminating line kills the listener. This holds even in `WaitForInput`, where ">" would end the exchange. |
| Driver.DriveStalls | device_proxy.py:92-99 | A wait in which no terminating line arrives without a raise before it never returns. |
| Driver.ExecuteCompletesIff | device_proxy.py:88-115 | An exchange returns if and only if some line ends it and no line up to the first such line raises. |
| Driver.ExecuteMode | device_proxy.py:88-94 | The loop that advances one inbound line per turn while `waiting` holds gives exactly the functional exchange. |
| Commands.Exec | device_proxy.py:81-94 | An exchange adds exactly its command to the issued payloads, whether it returns or not. When the flag is not false, the trace grows by that one write only. The exchange returns `result`, leaves `mode` set and `waiting` clear, and keeps the flag. Outside `CheckOk` it returns the previous `result`. |
| Commands.ExecCompletes | device_proxy.py:88-115 | At the session level, an exchange returns if and only if a terminating line arrives with no raise before it. It then returns that line's verdict and leaves the lines after it for the next exchange. |
| Commands.CheckDeviceStatus | device_proxy.py:121-128 | Issues `AT\r`, whether it returns or not, and when it returns, returns a boolean. |
| Commands.CheckDeviceStatusVerdict | device_proxy.py:121-128 | The health check returns if and only if an "OK" or "ERROR" line arrives with no raise before it. It returns true when the first such line is "OK" and false when it is "ERROR". |
| Commands.CheckSignal | device_proxy.py:130-132 | Returns exactly when its one exchange returns. Issues `AT+CSQ\r`, whether it returns or not. It leaves `mode` as `IncludeOk` for later exchanges and does not change `result`. |
| Commands.CheckSignalCompletes | device_proxy.py:130-132 | `check_signal` returns if and only if a line containing "OK" arrives with no raise before it. It then leaves the lines after the first such line for the next exchange. |
| Commands.Configure | device_proxy.py:139-142 | Issues `AT+CMGF=1\r` and then `AT+CSCS="GSM"\r`, and keeps the flag. |
| Commands.ConfigureOutcome | device_proxy.py:139-142 | The configuration returns exactly when both of its exchanges return. If `AT+CMGF=1\r` never returns, the configuration stops exactly as that exchange does and `AT+CSCS="GSM"\r` is never written. If the first returns and the second never does, it stops exactly as the second. Either way the issued payloads are a non-empty prefix of the two. |
| Commands.Submit | device_proxy.py:143-148 | With the flag raised, the number and body writes are the only writes, in that order. No stale-prompt SUB can land between or after them. The flag ends false. Only a script that runs out can stop it; the listener cannot die. |
| Commands.SubmitOutcome | device_proxy.py:143-148 | The submission returns exactly when both of its exchanges return. If the number's exchange never returns, the submission stops exactly as that exchange does and the trace has grown by the number write alone. If the body's exchange never returns, it stops exactly as that one does and the trace has grown by the number and the body. |
| Commands.SendMessage | device_proxy.py:134-149 | Returns true exactly when the `AT+CMGS=?\r` health check yields true, whatever the later results. On false, the only payload issued is `AT+CMGS=?\r`. On true, it issues `AT+CMGS=?\r`, `AT+CMGF=1\r`, `AT+CSCS="GSM"\r`, `AT+CMGS="<number>"\r` and `<message>` + SUB, in that order. The last two writes are the number and the body, and the flag ends false. The listener can die only on a proxy whose flag was never assigned. |
| Commands.SendMessageOutcome | device_proxy.py:134-149 | A health check that returns false makes `send_message` return false at once, with the session that check left. `send_message` returns exactly when the check returns and, if it passed, the configuration and the submission both return. If the health check never returns, `send_message` stops exactly as that check does. If the check passes and the configuration or then the submission never returns, it stops exactly as that step does, so nothing after the hung exchange is written. The issued payloads are then a non-empty prefix of the five. |
| Commands.Inspect | device_proxy.py:156-161 | Issues `AT+CNUM\r`, `AT+CMGL="ALL"\r` and `AT+CMGR=1`, in that order, and leaves `mode` as `CheckOk` with a boolean `result`. |
| Commands.InspectOutcome | device_proxy.py:156-161 | Those three exchanges return exactly when each of them returns. If one of them never returns, the inspection stops exactly as the first such exchange does, so no later payload is written. The issued payloads are then a non-empty prefix of the three. |
| Commands.ReadMessages | device_proxy.py:151-161 | Issues `AT+CMGF=1\r`, `AT+CSCS="GSM"\r`, `AT+CNUM\r`, `AT+CMGL="ALL"\r` and `AT+CMGR=1` (no carriage return), in that order. It leaves `mode` as `CheckOk` with a boolean `result`. |
| Commands.ReadMessagesOutcome | device_proxy.py:151-161 | `read_messages` returns exactly when the configuration and the three later exchanges all return. If the configuration never returns, `read_messages` stops exactly as the configuration does. If the configuration returns and the inspection never does, it stops exactly as the inspection does. The issued payloads are then a non-empty prefix of the five. |
| Scenarios.FreshProxyPromptKillsListener | device_proxy.py:96-99 | On a freshly constructed proxy, a ">" line that arrives before any "OK" or "ERROR" kills the listener. The health check then never returns after writing `AT\r`, even if "OK" follows. |
| Scenarios.StalePromptExchange | device_proxy.py:88-107 | With the flag false, a `CheckOk` exchange fed ">", "OK", "RING" writes the command and one SUB. It returns true and leaves "RING" unconsumed. |
| Scenarios.StalePromptCancelled | device_proxy.py:96-107 | The same script through `check_device_status`: result true, trace `AT\r` then SUB, and "RING" left for the next exchange. |
| Scenarios.DeliveredOn | device_proxy.py:134-149 | Over any inbox whose first five reads are "OK", "OK", "OK", ">" and a read containing "OK", `send_message` returns true. It issues its five payloads in order and leaves the later reads for the next exchange. |
| Scenarios.SendMessageDelivers | device_proxy.py:134-149 | On a freshly constructed proxy, the reads "OK", "OK", "OK", ">", "+CMGS: 1 OK", "tail" make `send_message` return true. It issues exactly its five payloads, and "tail" is left over. |
| Scenarios.MessagesReadOn | device_proxy.py:151-161 | Over any inbox whose first five reads are "OK", "OK", a read containing "OK", "OK" and "OK", `read_messages` returns. It issues its five payloads in order, leaves `result` true, and leaves the later reads for the next exchange. |
| Scenarios.MessagesRead | device_proxy.py:151-161 | On a freshly constructed proxy, the reads "OK", "OK", a multi-line `+CNUM` read ending in "OK", "OK", "OK" make `read_messages` return. It issues exactly its five payloads, leaves `result` true, and consumes every read. |
| Scenarios.ListingStopsOn | device_proxy.py:151-161 | Over any inbox of "OK", "OK", "OK" and then a multi-line `+CMGL` read that ends in "OK", `read_messages` never returns. The listing exchange runs under `CheckOk`, and the listing read is not "OK". It has issued `AT+CMGF=1\r`, `AT+CSCS="GSM"\r`, `AT+CNUM\r` and `AT+CMGL="ALL"\r`, and not `AT+CMGR=1`. |
| Scenarios.ListingNeverEndsList | device_proxy.py:101-104 | The same on a freshly constructed proxy: under `CheckOk` only a read equal to "OK" or "ERROR" ends an exchange, so the read `+CMGL: 1,"REC UNREAD","+15550100"\r\nhello\r\n\r\nOK` hangs `read_messages` at its listing step, with exactly four payloads issued. |
| Scenarios.ContainedOkExchanges | device_proxy.py:101-110 | Whatever the flag, the line "+CSQ: OK" does not end a `CheckOk` exchange but does end an `IncludeOk` one. |
| Scenarios.ContainedOkOnlyEndsIncludeOk | device_proxy.py:101-110 | The same line at the session level: the health check never returns, while `check_signal` returns with `result` unchanged and nothing left in the script. |

## Left out

- USB discovery, kernel-driver detach and reattach, reset, endpoint lookup and resource
  disposal in `__enter__`/`__exit__` (device_proxy.py:24-79) are OS and bus I/O.
- `send_command` (device_proxy.py:81-86) appears only as an append to the write trace. The
  endpoint write itself, and the write errors it swallows, are foreign I/O.
- `ListenerThread` (device_proxy.py:166-196) is not modelled: the thread lifecycle, the
  blocking reads, the timeout filtering and the `time.sleep` pacing. Each script item stands
  for one read, already decoded and `strip()`ped. Its one modelled consequence is that an exception
  other than a USB error ends the thread (`ListenerDied`).
- Timing and interleaving are not modelled. In the source the listener also handles reads
  that arrive between exchanges, while `waiting` is false, under the previous `mode`. Such a
  read can change `result` or write SUB before the next exchange starts. A ">" arriving
  between exchanges while the flag was never assigned raises (device_proxy.py:97) and ends
  the listener there, even before any exchange. The model instead hands every read to the
  next exchange that waits. A read handled between `execute_mode` setting `mode` and setting
  `waiting` is not modelled either.
- The race between the two threads inside one exchange is not modelled. On "OK" or "ERROR"
  the listener clears `waiting` before it assigns `result` (device_proxy.py:103-104 and
  106-107), so the polling caller (device_proxy.py:92-94) can wake in between and return the
  previous `result`. On a fresh proxy that is `None`, and `send_message` then returns False
  (device_proxy.py:137). `ExecCompletes` and `CheckDeviceStatusVerdict` describe the
  sequential model only, where the assignment always lands first.
- The `while self.waiting: time.sleep(1)` busy-wait becomes sequential consumption of a
  finite script. A wait that would never end is reported as `Hung`.
- All `print` logging is left out.
- app.py is a top-level script and not part of this model. It calls `add_message_to_wait`
  and `wait_for_all_messages`, which `DeviceProxy` does not define.

=== FILE: commands.dfy ===
/** The proxy's command sequences (device_proxy.py:121-161): fixed series of exchanges
    over one session, each a call of `execute_mode` with a mode and a payload. */
module Commands {
  import opened Wrappers
  import opened Handler
  import opened Driver

  /** The payloads, character for character as the source writes them. */
  const AT: string := "AT\r"
  const AT_CSQ: string := "AT+CSQ\r"
  const AT_CMGS_TEST: string := "AT+CMGS=?\r"
  const AT_CMGF_TEXT: string := "AT+CMGF=1\r"
  const AT_CSCS_GSM: string := "AT+CSCS=\"GSM\"\r"
  const AT_CNUM: string := "AT+CNUM\r"
  const AT_CMGL_ALL: string := "AT+CMGL=\"ALL\"\r"
  /** Written without a trailing carriage return. */
  const AT_CMGR_1: string := "AT+CMGR=1"

  /** `AT+CMGS="<number>"\r`: start an SMS to `number`. */
  function SetNumber(number: string): string
  {
    "AT+CMGS=\"" + number + "\"\r"
  }

  /** The SMS body followed by SUB. */
  function Body(message: string): string
  {
    message + ESCAPE
  }

  /** The proxy with its inbound line script and the writes made so far. */
  datatype Session = Session(state: State, inbox: seq<string>, trace: seq<Write>)

  /** A value together with the session after producing it. */
  datatype Reply<+T> = Reply(value: T, session: Session)

  /** A command sequence either returns, or some exchange in it never returns; the
      latter keeps the writes made until then. */
  datatype Outcome<+T> = Done(value: T) | Blocked(stall: Stall, trace: seq<Write>)
  {
    predicate IsFailure() { Blocked? }

    function PropagateFailure<U>(): Outcome<U>
      requires Blocked?
    {
      Blocked(stall, trace)
    }

    function Extract(): T
      requires Done?
    {
      value
    }
  }

  /** The payloads that command sequences handed to `send_command`, in order, leaving
      out the SUB writes of the handler's stale-prompt check. */
  function IssuedPayloads(trace: seq<Write>): seq<string>
  {
    if |trace| == 0 then []
    else IssuedPayloads(trace[..|trace| - 1])
         + (match trace[|trace| - 1] case Issued(p) => [p] case Escaped => [])
  }

  lemma {:induction false} IssuedAppend(a: seq<Write>, b: seq<Write>)
    ensures IssuedPayloads(a + b) == IssuedPayloads(a) + IssuedPayloads(b)
    decreases |b|
  {
    if |b| == 0 {
      assert a + b == a;
    } else {
      var b' := b[..|b| - 1];
      assert (a + b)[..|a + b| - 1] == a + b';
      assert (a + b)[|a + b| - 1] == b[|b| - 1];
      IssuedAppend(a, b');
    }
  }

  lemma {:induction false} IssuedOfEscapes(ws: seq<Write>)
    requires AllEscapes(ws)
    ensures IssuedPayloads(ws) == []
    decreases |ws|
  {
    if |ws| > 0 {
      IssuedOfEscapes(ws[..|ws| - 1]);
    }
  }

  /** Python truthiness of the proxy's `result`: `None` and `False` are both false. */
  predicate Truthy(v: Option<bool>)
  {
    v == Some(true)
  }

  /** One `execute_mode(mode, command)` on the session; its value is the `result`
      attribute once `waiting` is cleared. */
  function Exec(ses: Session, mode: string, command: string): (r: Outcome<Reply<Option<bool>>>)
    ensures r.Done? ==> IssuedPayloads(r.value.session.trace) == IssuedPayloads(ses.trace) + [command]
    ensures r.Done? && ses.state.sendingText != Some(false) ==>
              r.value.session.trace == ses.trace + [Issued(command)]
    ensures r.Done? ==> r.value.value == r.value.session.state.result
    ensures r.Done? ==> && r.value.session.state.mode == Some(mode)
                        && !r.value.session.state.waiting
                        && r.value.session.state.sendingText == ses.state.sendingText
    ensures r.Done? && mode != CHECK_OK ==> r.value.value == ses.state.result
    ensures r.Done? && mode == CHECK_OK ==> r.value.value.Some?
    ensures r.Blocked? ==> IssuedPayloads(r.trace) == IssuedPayloads(ses.trace) + [command]
    ensures r.Blocked? && ses.state.sendingText != Some(false) ==> r.trace == ses.trace + [Issued(command)]
    ensures r.Blocked? && r.stall == ListenerDied ==> ses.state.sendingText.None?
  {
    var e := Execute(ses.state, mode, command, ses.inbox);
    assert e.writes == [Issued(command)] + e.writes[1..];
    IssuedAppend(ses.trace, e.writes);
    IssuedAppend([Issued(command)], e.writes[1..]);
    IssuedOfEscapes(e.writes[1..]);
    assert IssuedPayloads([Issued(command)]) == [command] by {
      assert [Issued(command)][..0] == [];
    }
    if e.Hung? then
      Blocked(e.stall, ses.trace + e.writes)
    else
      Done(Reply(e.state.result, Session(e.state, e.rest, ses.trace + e.writes)))
  }

  /** An exchange returns exactly when some line ends it and no line up to the first such
      line raises; it then yields that line's verdict (or the old `result`) and leaves the
      lines after it for the next exchange. */
  lemma ExecCompletes(ses: Session, mode: string, command: string)
    ensures Exec(ses, mode, command).Done?
        <==> exists k :: FirstEnd(Some(mode), ses.inbox, k) && Survives(ses.state.sendingText, ses.inbox[..k + 1])
    ensures forall k :: FirstEnd(Some(mode), ses.inbox, k) && Survives(ses.state.sendingText, ses.inbox[..k + 1]) ==>
              var r := Exec(ses, mode, command);
              && r.Done?
              && r.value.value == Verdict(Some(mode), ses.inbox[k], ses.state.result)
              && r.value.session.inbox == ses.inbox[k + 1..]
  {
    ExecuteCompletesIff(ses.state, mode, command, ses.inbox);
    forall k | FirstEnd(Some(mode), ses.inbox, k) && Survives(ses.state.sendingText, ses.inbox[..k + 1])
      ensures var r := Exec(ses, mode, command);
              && r.Done?
              && r.value.value == Verdict(Some(mode), ses.inbox[k], ses.state.result)
              && r.value.session.inbox == ses.inbox[k + 1..]
    {
      DriveCompletes(ses.state.(mode := Some(mode), waiting := true), ses.inbox, k);
    }
  }

  /** `check_device_status` returns True when the first "OK"/"ERROR" line is "OK" and False
      when it is "ERROR"; with no such line (or a listener killed before it) it never returns. */
  lemma CheckDeviceStatusVerdict(ses: Session)
    ensures CheckDeviceStatus(ses).Done?
        <==> exists k :: FirstEnd(Some(CHECK_OK), ses.inbox, k) && Survives(ses.state.sendingText, ses.inbox[..k + 1])
    ensures forall k :: FirstEnd(Some(CHECK_OK), ses.inbox, k) && Survives(ses.state.sendingText, ses.inbox[..k + 1]) ==>
              && CheckDeviceStatus(ses).Done?
              && (ses.inbox[k] == "OK" ==> CheckDeviceStatus(ses).value.value == Some(true))
              && (ses.inbox[k] == "ERROR" ==> CheckDeviceStatus(ses).value.value == Some(false))
  {
    ExecCompletes(ses, CHECK_OK, AT);
  }

  /** `set_text_sending_status` on the session's proxy. */
  function SetFlag(ses: Session, status: bool): (r: Session)
    ensures r.state.sendingText == Some(status)
    ensures r.inbox == ses.inbox && r.trace == ses.trace
  {
    ses.(state := SetTextSendingStatus(ses.state, status))
  }

  /** `check_device_status` (device_proxy.py:121-128). */
  function CheckDeviceStatus(ses: Session): (r: Outcome<Reply<Option<bool>>>)
    ensures r.Done? ==> IssuedPayloads(r.value.session.trace) == IssuedPayloads(ses.trace) + [AT]
    ensures r.Done? ==> r.value.value.Some?
    ensures r.Blocked? ==> IssuedPayloads(r.trace) == IssuedPayloads(ses.trace) + [AT]
  {
    Exec(ses, CHECK_OK, AT)
  }

  /** `check_signal` (device_proxy.py:130-132); the source returns nothing. */
  function CheckSignal(ses: Session): (r: Outcome<Session>)
    ensures r.Done? <==> Exec(ses, INCLUDE_OK, AT_CSQ).Done?
    ensures r.Done? ==> IssuedPayloads(r.value.trace) == IssuedPayloads(ses.trace) + [AT_CSQ]
    ensures r.Blocked? ==> IssuedPayloads(r.trace) == IssuedPayloads(ses.trace) + [AT_CSQ]
    ensures r.Done? ==> r.value.state.mode == Some(INCLUDE_OK) && r.value.state.result == ses.state.result
  {
    var reply :- Exec(ses, INCLUDE_OK, AT_CSQ);
    Done(reply.session)
  }

  /** `check_signal` returns exactly when a line containing "OK" arrives with no raise
      before it, and then leaves the lines after the first such line unconsumed. */
  lemma CheckSignalCompletes(ses: Session)
    ensures CheckSignal(ses).Done?
        <==> exists k :: FirstEnd(Some(INCLUDE_OK), ses.inbox, k) && Survives(ses.state.sendingText, ses.inbox[..k + 1])
    ensures forall k :: FirstEnd(Some(INCLUDE_OK), ses.inbox, k) && Survives(ses.state.sendingText, ses.inbox[..k + 1]) ==>
              CheckSignal(ses).Done? && CheckSignal(ses).value.inbox == ses.inbox[k + 1..]
  {
    ExecCompletes(ses, INCLUDE_OK, AT_CSQ);
  }


  /** Steps 2 and 3 of `send_message` (device_proxy.py:139-142): text mode, then the GSM
      character set, each a `CheckOk` exchange whose result is ignored. */
  function Configure(ses: Session): (r: Outcome<Session>)
    ensures r.Done? ==> IssuedPayloads(r.value.trace) == IssuedPayloads(ses.trace) + [AT_CMGF_TEXT, AT_CSCS_GSM]
    ensures r.Done? ==> r.value.state.sendingText == ses.state.sendingText
    ensures r.Blocked? && r.stall == ListenerDied ==> ses.state.sendingText.None?
  {
    var textMode :- Exec(ses, CHECK_OK, AT_CMGF_TEXT);
    var charset :- Exec(textMode.session, CHECK_OK, AT_CSCS_GSM);
    assert IssuedPayloads(charset.session.trace) == IssuedPayloads(ses.trace) + [AT_CMGF_TEXT] + [AT_CSCS_GSM];
    AppendTwo(IssuedPayloads(ses.trace), AT_CMGF_TEXT, AT_CSCS_GSM);
    Done(charset.session)
  }

  /** Steps 4 and 5 of `send_message` (device_proxy.py:143-148): the flag is raised, the
      number is written and the prompt awaited, the body is written and an "OK" awaited,
      and only then is the flag lowered. With the flag up, no prompt can raise and none
      is cancelled, so the two payloads are the only writes. */
  function Submit(ses: Session, number: string, message: string): (r: Outcome<Session>)
    ensures r.Done? ==> r.value.trace == ses.trace + [Issued(SetNumber(number)), Issued(Body(message))]
    ensures r.Done? ==> r.value.state.sendingText == Some(false)
    ensures r.Blocked? ==> r.stall == ScriptExhausted
  {
    var raised := SetFlag(ses, true);
    var toNumber :- Exec(raised, WAIT_FOR_INPUT, SetNumber(number));
    var body :- Exec(toNumber.session, INCLUDE_OK, Body(message));
    AppendTwo(ses.trace, Issued(SetNumber(number)), Issued(Body(message)));
    Done(SetFlag(body.session, false))
  }

  /** `send_message` (device_proxy.py:134-149): a health check that may abort, then
      configuration, then the number and the body. It returns True exactly when the
      health check passes, whatever the later exchanges yield. */
  function SendMessage(ses: Session, number: string, message: string): (r: Outcome<Reply<bool>>)
    ensures r.Done? ==>
              var check := Exec(ses, CHECK_OK, AT_CMGS_TEST);
              check.Done? && (r.value.value <==> Truthy(check.value.value))
    ensures r.Done? && !r.value.value ==>
              IssuedPayloads(r.value.session.trace) == IssuedPayloads(ses.trace) + [AT_CMGS_TEST]
    ensures r.Done? && r.value.value ==>
              IssuedPayloads(r.value.session.trace) == IssuedPayloads(ses.trace)
                + [AT_CMGS_TEST, AT_CMGF_TEXT, AT_CSCS_GSM, SetNumber(number), Body(message)]
    ensures r.Done? && r.value.value ==>
              var t := r.value.session.trace;
              |t| >= 2 && t[|t| - 2..] == [Issued(SetNumber(number)), Issued(Body(message))]
    ensures r.Done? && r.value.value ==> r.value.session.state.sendingText == Some(false)
    ensures r.Blocked? && r.stall == ListenerDied ==> ses.state.sendingText.None?
  {
    var check :- Exec(ses, CHECK_OK, AT_CMGS_TEST);
    if !Truthy(check.value) then
      Done(Reply(false, check.session))
    else
      var configured :- Configure(check.session);
      var sent :- Submit(configured, number, message);
      var c := IssuedPayloads(ses.trace);
      assert IssuedPayloads(sent.trace) == c + [AT_CMGS_TEST] + [AT_CMGF_TEXT, AT_CSCS_GSM]
                                             + [SetNumber(number), Body(message)] by {
        IssuedTwo(configured.trace, SetNumber(number), Body(message));
      }
      AppendFive(c, AT_CMGS_TEST, AT_CMGF_TEXT, AT_CSCS_GSM, SetNumber(number), Body(message));
      LastTwo(configured.trace, Issued(SetNumber(number)), Issued(Body(message)));
      Done(Reply(true, sent))
  }

  lemma IssuedTwo(t: seq<Write>, a: string, b: string)
    ensures IssuedPayloads(t + [Issued(a), Issued(b)]) == IssuedPayloads(t) + [a, b]
  {
    var u := t + [Issued(a), Issued(b)];
    assert u[..|u| - 1] == t + [Issued(a)];
    assert (t + [Issued(a)])[..|t|] == t;
  }

  lemma LastTwo<T>(t: seq<T>, a: T, b: T)
    ensures var u := t + [a, b]; |u| >= 2 && u[|u| - 2..] == [a, b]
  {
  }

  /** Steps 3 to 5 of `read_messages` (device_proxy.py:156-161): the own number, the
      message list and message 1, the last payload without a carriage return. */
  function Inspect(ses: Session): (r: Outcome<Session>)
    ensures r.Done? ==> IssuedPayloads(r.value.trace) == IssuedPayloads(ses.trace) + [AT_CNUM, AT_CMGL_ALL, AT_CMGR_1]
    ensures r.Done? ==> r.value.state.mode == Some(CHECK_OK) && r.value.state.result.Some?
    ensures r.Blocked? && r.stall == ListenerDied ==> ses.state.sendingText.None?
  {
    var ownNumber :- Exec(ses, INCLUDE_OK, AT_CNUM);
    var list :- Exec(ownNumber.session, CHECK_OK, AT_CMGL_ALL);
    var read :- Exec(list.session, CHECK_OK, AT_CMGR_1);
    assert IssuedPayloads(read.session.trace) == IssuedPayloads(ses.trace) + [AT_CNUM] + [AT_CMGL_ALL] + [AT_CMGR_1];
    AppendThree(IssuedPayloads(ses.trace), AT_CNUM, AT_CMGL_ALL, AT_CMGR_1);
    Done(read.session)
  }

  /** `read_messages` (device_proxy.py:151-161): the same configuration as `send_message`,
      then the inspection steps; the source returns nothing and ignores every result. */
  function ReadMessages(ses: Session): (r: Outcome<Session>)
    ensures r.Done? ==>
              IssuedPayloads(r.value.trace)
                == IssuedPayloads(ses.trace) + [AT_CMGF_TEXT, AT_CSCS_GSM, AT_CNUM, AT_CMGL_ALL, AT_CMGR_1]
    ensures r.Done? ==> r.value.state.mode == Some(CHECK_OK) && r.value.state.result.Some?
    ensures r.Blocked? && r.stall == ListenerDied ==> ses.state.sendingText.None?
  {
    var configured :- Configure(ses);
    var inspected :- Inspect(configured);
    AppendFive(IssuedPayloads(ses.trace), AT_CMGF_TEXT, AT_CSCS_GSM, AT_CNUM, AT_CMGL_ALL, AT_CMGR_1);
    Done(inspected)
  }

  /** `after` is `before` followed by the first few items of `plan`, at least one. This
      alone does not say which exchange hung; the outcome lemmas below pin that down
      by naming the step whose stop the whole sequence reports. */
  ghost predicate WrotePrefix<T>(before: seq<T>, after: seq<T>, plan: seq<T>)
  {
    |before| < |after| <= |before| + |plan| && after == before + plan[..|after| - |before|]
  }

  lemma PrefixOne<T>(c: seq<T>, x: T, rest: seq<T>)
    ensures WrotePrefix(c, c + [x], [x] + rest)
  {
    assert ([x] + rest)[..1] == [x];
  }

  lemma PrefixLast<T>(c: seq<T>, x: T)
    ensures WrotePrefix(c, c + [x], [x])
  {
  }

  /** A prefix of what follows the first item of a plan is a prefix of the plan. */
  lemma PrefixCons<T>(c: seq<T>, x: T, rest: seq<T>, after: seq<T>)
    requires WrotePrefix(c + [x], after, rest)
    ensures WrotePrefix(c, after, [x] + rest)
  {
    var n := |after| - |c + [x]|;
    assert ([x] + rest)[..n + 1] == [x] + rest[..n];
  }

  /** A prefix of a plan is a prefix of any longer plan. */
  lemma PrefixLonger<T>(c: seq<T>, p: seq<T>, q: seq<T>, after: seq<T>)
    requires WrotePrefix(c, after, p)
    ensures WrotePrefix(c, after, p + q)
  {
    assert (p + q)[..|after| - |c|] == p[..|after| - |c|];
  }

  /** A prefix of what follows a whole plan is a prefix of the concatenation. */
  lemma PrefixAfter<T>(c: seq<T>, p: seq<T>, q: seq<T>, after: seq<T>)
    requires WrotePrefix(c + p, after, q)
    ensures WrotePrefix(c, after, p + q)
  {
    var n := |after| - |c + p|;
    assert (p + q)[..|p| + n] == p + q[..n];
  }

  /** The configuration returns exactly when both its exchanges return; stopped, it
      reports the stop of the first exchange that never returned, so nothing after that
      exchange is written. */
  lemma ConfigureOutcome(ses: Session)
    ensures Configure(ses).Done?
        <==> (var textMode := Exec(ses, CHECK_OK, AT_CMGF_TEXT);
              textMode.Done? && Exec(textMode.value.session, CHECK_OK, AT_CSCS_GSM).Done?)
    ensures var textMode := Exec(ses, CHECK_OK, AT_CMGF_TEXT);
            textMode.Blocked? ==> Configure(ses) == Blocked(textMode.stall, textMode.trace)
    ensures var textMode := Exec(ses, CHECK_OK, AT_CMGF_TEXT);
            textMode.Done? ==>
              var charset := Exec(textMode.value.session, CHECK_OK, AT_CSCS_GSM);
              charset.Blocked? ==> Configure(ses) == Blocked(charset.stall, charset.trace)
    ensures var r := Configure(ses);
            r.Blocked? ==>
              WrotePrefix(IssuedPayloads(ses.trace), IssuedPayloads(r.trace), [AT_CMGF_TEXT, AT_CSCS_GSM])
  {
    var c := IssuedPayloads(ses.trace);
    Pair(AT_CMGF_TEXT, AT_CSCS_GSM);
    var textMode := Exec(ses, CHECK_OK, AT_CMGF_TEXT);
    if textMode.Blocked? {
      PrefixOne(c, AT_CMGF_TEXT, [AT_CSCS_GSM]);
    } else {
      var charset := Exec(textMode.value.session, CHECK_OK, AT_CSCS_GSM);
      if charset.Blocked? {
        PrefixLast(c + [AT_CMGF_TEXT], AT_CSCS_GSM);
        PrefixCons(c, AT_CMGF_TEXT, [AT_CSCS_GSM], IssuedPayloads(charset.trace));
      }
    }
  }

  /** The submission returns exactly when both its exchanges return; stopped, it has
      written the number, and the body only if the number's exchange returned. */
  lemma SubmitOutcome(ses: Session, number: string, message: string)
    ensures Submit(ses, number, message).Done?
        <==> (var toNumber := Exec(SetFlag(ses, true), WAIT_FOR_INPUT, SetNumber(number));
              toNumber.Done? && Exec(toNumber.value.session, INCLUDE_OK, Body(message)).Done?)
    ensures var toNumber := Exec(SetFlag(ses, true), WAIT_FOR_INPUT, SetNumber(number));
            toNumber.Blocked? ==>
              && Submit(ses, number, message) == Blocked(toNumber.stall, toNumber.trace)
              && toNumber.trace == ses.trace + [Issued(SetNumber(number))]
    ensures var toNumber := Exec(SetFlag(ses, true), WAIT_FOR_INPUT, SetNumber(number));
            toNumber.Done? ==>
              var sent := Exec(toNumber.value.session, INCLUDE_OK, Body(message));
              sent.Blocked? ==>
                && Submit(ses, number, message) == Blocked(sent.stall, sent.trace)
                && sent.trace == ses.trace + [Issued(SetNumber(number)), Issued(Body(message))]
    ensures var r := Submit(ses, number, message);
            r.Blocked? ==> WrotePrefix(ses.trace, r.trace, [Issued(SetNumber(number)), Issued(Body(message))])
    ensures var r := Submit(ses, number, message);
            r.Blocked? ==>
              WrotePrefix(IssuedPayloads(ses.trace), IssuedPayloads(r.trace), [SetNumber(number), Body(message)])
  {
    var n, b := Issued(SetNumber(number)), Issued(Body(message));
    var c := IssuedPayloads(ses.trace);
    Pair(n, b);
    Pair(SetNumber(number), Body(message));
    var raised := SetFlag(ses, true);
    var toNumber := Exec(raised, WAIT_FOR_INPUT, SetNumber(number));
    if toNumber.Blocked? {
      assert toNumber.trace == ses.trace + [n];
      PrefixOne(ses.trace, n, [b]);
      PrefixOne(c, SetNumber(number), [Body(message)]);
    } else {
      var sent := Exec(toNumber.value.session, INCLUDE_OK, Body(message));
      if sent.Blocked? {
        assert sent.trace == ses.trace + [n] + [b];
        AppendTwo(ses.trace, n, b);
        PrefixLast(ses.trace + [n], b);
        PrefixCons(ses.trace, n, [b], sent.trace);
        PrefixLast(c + [SetNumber(number)], Body(message));
        PrefixCons(c, SetNumber(number), [Body(message)], IssuedPayloads(sent.trace));
      }
    }
  }

  /** `send_message` returns exactly when its health check returns and, if that passes,
      every later exchange returns; a failed check returns False with nothing more
      written. Stopped, it reports the stop of the first step that never returned. */
  lemma SendMessageOutcome(ses: Session, number: string, message: string)
    ensures var check := Exec(ses, CHECK_OK, AT_CMGS_TEST);
            check.Done? && !Truthy(check.value.value) ==>
              SendMessage(ses, number, message) == Done(Reply(false, check.value.session))
    ensures var check := Exec(ses, CHECK_OK, AT_CMGS_TEST);
            check.Blocked? ==> SendMessage(ses, number, message) == Blocked(check.stall, check.trace)
    ensures var check := Exec(ses, CHECK_OK, AT_CMGS_TEST);
            check.Done? && Truthy(check.value.value) ==>
              var configured := Configure(check.value.session);
              configured.Blocked? ==> SendMessage(ses, number, message) == Blocked(configured.stall, configured.trace)
    ensures var check := Exec(ses, CHECK_OK, AT_CMGS_TEST);
            check.Done? && Truthy(check.value.value) ==>
              var configured := Configure(check.value.session);
              configured.Done? ==>
                var sent := Submit(configured.value, number, message);
                sent.Blocked? ==> SendMessage(ses, number, message) == Blocked(sent.stall, sent.trace)
    ensures SendMessage(ses, number, message).Done?
        <==> (var check := Exec(ses, CHECK_OK, AT_CMGS_TEST);
              && check.Done?
              && (Truthy(check.value.value) ==>
                    var configured := Configure(check.value.session);
                    configured.Done? && Submit(configured.value, number, message).Done?))
    ensures var r := SendMessage(ses, number, message);
            r.Blocked? ==>
              WrotePrefix(IssuedPayloads(ses.trace), IssuedPayloads(r.trace),
                          [AT_CMGS_TEST, AT_CMGF_TEXT, AT_CSCS_GSM, SetNumber(number), Body(message)])
  {
    var c := IssuedPayloads(ses.trace);
    var configuring, submitting := [AT_CMGF_TEXT, AT_CSCS_GSM], [SetNumber(number), Body(message)];
    AppendFive(c, AT_CMGS_TEST, AT_CMGF_TEXT, AT_CSCS_GSM, SetNumber(number), Body(message));
    var check := Exec(ses, CHECK_OK, AT_CMGS_TEST);
    if check.Blocked? {
      PrefixOne(c, AT_CMGS_TEST, configuring + submitting);
    } else if Truthy(check.value.value) {
      var c1 := c + [AT_CMGS_TEST];
      var configured := Configure(check.value.session);
      ConfigureOutcome(check.value.session);
      if configured.Blocked? {
        PrefixLonger(c1, configuring, submitting, IssuedPayloads(configured.trace));
        PrefixCons(c, AT_CMGS_TEST, configuring + submitting, IssuedPayloads(configured.trace));
      } else {
        var sent := Submit(configured.value, number, message);
        SubmitOutcome(configured.value, number, message);
        if sent.Blocked? {
          PrefixAfter(c1, configuring, submitting, IssuedPayloads(sent.trace));
          PrefixCons(c, AT_CMGS_TEST, configuring + submitting, IssuedPayloads(sent.trace));
        }
      }
    }
  }

  /** The inspection returns exactly when all three exchanges return; stopped, it
      reports the stop of the first exchange that never returned. */
  lemma InspectOutcome(ses: Session)
    ensures Inspect(ses).Done?
        <==> (var ownNumber := Exec(ses, INCLUDE_OK, AT_CNUM);
              && ownNumber.Done?
              && var list := Exec(ownNumber.value.session, CHECK_OK, AT_CMGL_ALL);
                 list.Done? && Exec(list.value.session, CHECK_OK, AT_CMGR_1).Done?)
    ensures var ownNumber := Exec(ses, INCLUDE_OK, AT_CNUM);
            ownNumber.Blocked? ==> Inspect(ses) == Blocked(ownNumber.stall, ownNumber.trace)
    ensures var ownNumber := Exec(ses, INCLUDE_OK, AT_CNUM);
            ownNumber.Done? ==>
              var list := Exec(ownNumber.value.session, CHECK_OK, AT_CMGL_ALL);
              list.Blocked? ==> Inspect(ses) == Blocked(list.stall, list.trace)
    ensures var ownNumber := Exec(ses, INCLUDE_OK, AT_CNUM);
            ownNumber.Done? ==>
              var list := Exec(ownNumber.value.session, CHECK_OK, AT_CMGL_ALL);
              list.Done? ==>
                var read := Exec(list.value.session, CHECK_OK, AT_CMGR_1);
                read.Blocked? ==> Inspect(ses) == Blocked(read.stall, read.trace)
    ensures var r := Inspect(ses);
            r.Blocked? ==>
              WrotePrefix(IssuedPayloads(ses.trace), IssuedPayloads(r.trace), [AT_CNUM, AT_CMGL_ALL, AT_CMGR_1])
  {
    var c := IssuedPayloads(ses.trace);
    AppendThree(c, AT_CNUM, AT_CMGL_ALL, AT_CMGR_1);
    var ownNumber := Exec(ses, INCLUDE_OK, AT_CNUM);
    if ownNumber.Blocked? {
      PrefixOne(c, AT_CNUM, [AT_CMGL_ALL, AT_CMGR_1]);
    } else {
      var c1 := c + [AT_CNUM];
      var list := Exec(ownNumber.value.session, CHECK_OK, AT_CMGL_ALL);
      if list.Blocked? {
        PrefixOne(c1, AT_CMGL_ALL, [AT_CMGR_1]);
        Pair(AT_CMGL_ALL, AT_CMGR_1);
        PrefixCons(c, AT_CNUM, [AT_CMGL_ALL, AT_CMGR_1], IssuedPayloads(list.trace));
      } else {
        var read := Exec(list.value.session, CHECK_OK, AT_CMGR_1);
        if read.Blocked? {
          PrefixLast(c1 + [AT_CMGL_ALL], AT_CMGR_1);
          Pair(AT_CMGL_ALL, AT_CMGR_1);
          PrefixCons(c1, AT_CMGL_ALL, [AT_CMGR_1], IssuedPayloads(read.trace));
          PrefixCons(c, AT_CNUM, [AT_CMGL_ALL, AT_CMGR_1], IssuedPayloads(read.trace));
        }
      }
    }
  }

  /** `read_messages` returns exactly when the configuration and the inspection both
      return; stopped, it reports the stop of whichever of the two did not return. */
  lemma ReadMessagesOutcome(ses: Session)
    ensures ReadMessages(ses).Done?
        <==> (var configured := Configure(ses); configured.Done? && Inspect(configured.value).Done?)
    ensures var configured := Configure(ses);
            configured.Blocked? ==> ReadMessages(ses) == configured
    ensures var configured := Configure(ses);
            configured.Done? ==>
              var inspected := Inspect(configured.value);
              inspected.Blocked? ==> ReadMessages(ses) == Blocked(inspected.stall, inspected.trace)
    ensures var r := ReadMessages(ses);
            r.Blocked? ==>
              WrotePrefix(IssuedPayloads(ses.trace), IssuedPayloads(r.trace),
                          [AT_CMGF_TEXT, AT_CSCS_GSM, AT_CNUM, AT_CMGL_ALL, AT_CMGR_1])
  {
    var c := IssuedPayloads(ses.trace);
    var configuring, inspecting := [AT_CMGF_TEXT, AT_CSCS_GSM], [AT_CNUM, AT_CMGL_ALL, AT_CMGR_1];
    AppendFive(c, AT_CMGF_TEXT, AT_CSCS_GSM, AT_CNUM, AT_CMGL_ALL, AT_CMGR_1);
    var configured := Configure(ses);
    ConfigureOutcome(ses);
    if configured.Blocked? {
      PrefixLonger(c, configuring, inspecting, IssuedPayloads(configured.trace));
    } else {
      var inspected := Inspect(configured.value);
      InspectOutcome(configured.value);
      if inspected.Blocked? {
        PrefixAfter(c, configuring, inspecting, IssuedPayloads(inspected.trace));
      }
    }
  }

  lemma Pair<T>(a: T, b: T)
    ensures [a] + [b] == [a, b]
  {
  }

  lemma AppendTwo<T>(c: seq<T>, a: T, b: T)
    ensures c + [a] + [b] == c + [a, b]
  {
  }

  lemma AppendThree<T>(c: seq<T>, a: T, b: T, d: T)
    ensures [a] + [b, d] == [a, b, d]
    ensures c + [a] + [b] + [d] == c + [a, b, d]
  {
  }

  /** The five-payload plans, split the ways the command sequences build them. */
  lemma AppendFive<T>(c: seq<T>, a: T, b: T, d: T, e: T, f: T)
    ensures [a] + ([b, d] + [e, f]) == [a, b, d, e, f]
    ensures c + [a] + [b, d] + [e, f] == c + [a, b, d, e, f]
    ensures [a, b] + [d, e, f] == [a, b, d, e, f]
    ensures c + [a, b] + [d, e, f] == c + [a, b, d, e, f]
  {
  }
}

=== FILE: driver.dfy ===
/** `execute_mode` (device_proxy.py:88-94), made sequential: instead of a listener thread
    feeding lines while the caller polls `waiting`, the exchange consumes a finite script
    of inbound lines, one handler step per line, until `waiting` is false. */
module Driver {
  import opened Wrappers
  import opened Handler

  /** Why an exchange never returns. `ScriptExhausted`: no terminating line arrived, so the
      source would poll forever. `ListenerDied`: the handler raised, which ends the
      listener thread (it only catches USB errors), so `waiting` is never cleared. */
  datatype Stall = ScriptExhausted | ListenerDied

  /** The outcome of one exchange: the final state, every write made during it, and the
      unconsumed lines; or the reason it never returns with the state and writes so far. */
  datatype Exchange =
    | Completed(state: State, writes: seq<Write>, rest: seq<string>)
    | Hung(stall: Stall, state: State, writes: seq<Write>)

  /** `ws` all come from the handler's stale-prompt check. */
  predicate AllEscapes(ws: seq<Write>)
  {
    forall i :: 0 <= i < |ws| ==> ws[i] == Escaped
  }

  /** `n` copies of `x`. */
  function Repeat<T>(x: T, n: nat): (r: seq<T>)
    ensures |r| == n
    ensures forall i :: 0 <= i < n ==> r[i] == x
  {
    if n == 0 then [] else [x] + Repeat(x, n - 1)
  }

  /** The number of prompt lines in `lines`. */
  function CountPrompts(lines: seq<string>): nat
  {
    if |lines| == 0 then 0
    else (if lines[0] == PROMPT then 1 else 0) + CountPrompts(lines[1..])
  }

  /** Reference definition: the writes the handler makes over `lines`, one SUB per prompt
      when the flag is false, none otherwise. */
  function EscapesFor(sendingText: Option<bool>, lines: seq<string>): seq<Write>
  {
    if sendingText == Some(false) then Repeat(Escaped, CountPrompts(lines)) else []
  }

  /** Reference definition: `k` is the first line that ends an exchange in `mode`. */
  predicate FirstEnd(mode: Option<string>, script: seq<string>, k: int)
  {
    && 0 <= k < |script|
    && Terminates(mode, script[k])
    && forall j :: 0 <= j < k ==> !Terminates(mode, script[j])
  }

  /** Reference definition: handling `lines` cannot raise. */
  predicate Survives(sendingText: Option<bool>, lines: seq<string>)
  {
    sendingText.Some? || forall j :: 0 <= j < |lines| ==> lines[j] != PROMPT
  }

  /** Puts `ws` in front of the writes of `e`. */
  function Prepend(ws: seq<Write>, e: Exchange): (r: Exchange)
    ensures r.state == e.state && r.writes == ws + e.writes
    ensures r.Completed? == e.Completed?
    ensures r.Completed? ==> r.rest == e.rest
    ensures r.Hung? ==> r.stall == e.stall
  {
    match e
    case Completed(s, w, rest) => Completed(s, ws + w, rest)
    case Hung(why, s, w) => Hung(why, s, ws + w)
  }

  /** The polling loop of `execute_mode`, with one handler step per inbound line. */
  function Drive(s: State, script: seq<string>): (r: Exchange)
    ensures r.state.mode == s.mode && r.state.sendingText == s.sendingText
    ensures r.Completed? ==> !r.state.waiting
    ensures !s.waiting ==> r == Completed(s, [], script)
    ensures AllEscapes(r.writes)
    ensures s.sendingText != Some(false) ==> r.writes == []
    ensures s.mode != Some(CHECK_OK) ==> r.state.result == s.result
    ensures s.mode == Some(CHECK_OK) && s.waiting && r.Completed? ==> r.state.result.Some?
    ensures r.Hung? && r.stall == ListenerDied ==> s.sendingText.None?
    decreases |script|
  {
    if !s.waiting then
      Completed(s, [], script)
    else if |script| == 0 then
      Hung(ScriptExhausted, s, [])
    else
      match Handle(s, script[0])
      case Raised => Hung(ListenerDied, s, [])
      case Stepped(next, ws) => Prepend(ws, Drive(next, script[1..]))
  }

  /** `execute_mode(mode, command)`: set the mode, raise `waiting`, write the command, then
      wait. The returned value of `execute_mode` is `state.result` of a completed exchange;
      `result` is deliberately not reset first. */
  function Execute(s: State, mode: string, command: string, script: seq<string>): (r: Exchange)
    ensures r.state.mode == Some(mode) && r.state.sendingText == s.sendingText
    ensures |r.writes| >= 1 && r.writes[0] == Issued(command) && AllEscapes(r.writes[1..])
    ensures s.sendingText != Some(false) ==> r.writes == [Issued(command)]
    ensures r.Completed? ==> !r.state.waiting && |r.rest| <= |script| && r.rest == script[|script| - |r.rest|..]
    ensures mode != CHECK_OK ==> r.state.result == s.result
    ensures mode == CHECK_OK && r.Completed? ==> r.state.result.Some?
    ensures r.Hung? && r.stall == ListenerDied ==> s.sendingText.None?
  {
    var d := Drive(s.(mode := Some(mode), waiting := true), script);
    DriveLeavesSuffix(s.(mode := Some(mode), waiting := true), script);
    var r := Prepend([Issued(command)], d);
    assert r.writes == [Issued(command)] + d.writes;
    assert r.writes[1..] == d.writes;
    r
  }

  /** The lines a returning wait leaves unconsumed are a suffix of its script. */
  lemma {:induction false} DriveLeavesSuffix(s: State, script: seq<string>)
    ensures var r := Drive(s, script);
            r.Completed? ==> |r.rest| <= |script| && r.rest == script[|script| - |r.rest|..]
    decreases |script|
  {
    if s.waiting && |script| > 0 && Handle(s, script[0]).Stepped? {
      var r := Drive(Handle(s, script[0]).next, script[1..]);
      DriveLeavesSuffix(Handle(s, script[0]).next, script[1..]);
      if r.Completed? {
        assert script[1..][|script| - 1 - |r.rest|..] == script[|script| - |r.rest|..];
      }
    }
  }

  lemma PrependPrepend(a: seq<Write>, b: seq<Write>, e: Exchange)
    ensures Prepend(a, Prepend(b, e)) == Prepend(a + b, e)
  {
    match e
    case Completed(s, w, rest) => assert a + (b + w) == (a + b) + w;
    case Hung(why, s, w) => assert a + (b + w) == (a + b) + w;
  }

  lemma RepeatAppend<T>(x: T, m: nat, n: nat)
    ensures Repeat(x, m) + Repeat(x, n) == Repeat(x, m + n)
  {
  }

  /** `EscapesFor` of one line followed by more lines. */
  lemma EscapesCons(sendingText: Option<bool>, line: string, lines: seq<string>)
    ensures (if Cancels(sendingText, line) then [Escaped] else []) + EscapesFor(sendingText, lines)
            == EscapesFor(sendingText, [line] + lines)
  {
    assert ([line] + lines)[1..] == lines;
    if sendingText == Some(false) && line == PROMPT {
      RepeatAppend(Escaped, 1, CountPrompts(lines));
    }
  }

  /** An exchange whose first terminating line is `k`, with no raising line before it,
      ends right after line `k`: `waiting` cleared, the verdict of line `k` recorded,
      every other attribute as before, one SUB per prompt up to `k` when the flag is false. */
  lemma {:induction false} DriveCompletes(s: State, script: seq<string>, k: int)
    requires s.waiting
    requires FirstEnd(s.mode, script, k)
    requires Survives(s.sendingText, script[..k + 1])
    ensures Drive(s, script) == Completed(
              s.(waiting := false, result := Verdict(s.mode, script[k], s.result)),
              EscapesFor(s.sendingText, script[..k + 1]),
              script[k + 1..])
    decreases k
  {
    assert script[..k + 1][0] == script[0];
    var step := Handle(s, script[0]);
    assert step.Stepped?;
    var w0 := step.writes;
    if k == 0 {
      assert script[..1] == [script[0]];
      EscapesCons(s.sendingText, script[0], []);
      assert script[1..] == script[k + 1..];
    } else {
      assert step.next == s;
      var tail := script[1..];
      assert FirstEnd(s.mode, tail, k - 1) by {
        forall j | 0 <= j < k - 1 ensures !Terminates(s.mode, tail[j]) {
          assert tail[j] == script[j + 1];
        }
      }
      assert tail[..k] == script[1..k + 1];
      assert Survives(s.sendingText, tail[..k]) by {
        if s.sendingText.None? {
          forall j | 0 <= j < k ensures tail[..k][j] != PROMPT {
            assert tail[..k][j] == script[..k + 1][j + 1];
          }
        }
      }
      DriveCompletes(s, tail, k - 1);
      assert script[..k + 1] == [script[0]] + tail[..k];
      EscapesCons(s.sendingText, script[0], tail[..k]);
      assert tail[k..] == script[k + 1..];
    }
  }

  /** With no terminating line and no raising line, the exchange never returns: the
      whole script is consumed and the source would keep polling. */
  lemma {:induction false} DriveExhausts(s: State, script: seq<string>)
    requires s.waiting
    requires forall j :: 0 <= j < |script| ==> !Terminates(s.mode, script[j])
    requires Survives(s.sendingText, script)
    ensures Drive(s, script) == Hung(ScriptExhausted, s, EscapesFor(s.sendingText, script))
    decreases |script|
  {
    if |script| > 0 {
      var tail := script[1..];
      assert forall j :: 0 <= j < |tail| ==> tail[j] == script[j + 1];
      DriveExhausts(s, tail);
      assert script == [script[0]] + tail;
      EscapesCons(s.sendingText, script[0], tail);
    }
  }

  /** With the flag never assigned, the first prompt line that arrives before any
      terminating line kills the listener, even when the prompt would itself end the
      exchange (`WaitForInput`, `AnyMessage`): the attribute test comes first. */
  lemma {:induction false} DriveDies(s: State, script: seq<string>, k: int)
    requires s.waiting && s.sendingText.None?
    requires 0 <= k < |script| && script[k] == PROMPT
    requires forall j :: 0 <= j < k ==> !Terminates(s.mode, script[j])
    ensures Drive(s, script) == Hung(ListenerDied, s, [])
    decreases k
  {
    if k > 0 {
      var tail := script[1..];
      assert forall j :: 0 <= j < k - 1 ==> tail[j] == script[j + 1];
      DriveDies(s, tail, k - 1);
    }
  }

  /** The index of the first line that ends an exchange in `mode`, or `|script|` if none. */
  function FirstEndIndex(mode: Option<string>, script: seq<string>): (k: nat)
    ensures k <= |script|
    ensures k < |script| ==> FirstEnd(mode, script, k)
    ensures k == |script| ==> forall j :: 0 <= j < |script| ==> !Terminates(mode, script[j])
    decreases |script|
  {
    if |script| == 0 then 0
    else if Terminates(mode, script[0]) then 0
    else 1 + FirstEndIndex(mode, script[1..])
  }

  /** Both directions of "the exchange returns": it completes exactly when some line
      ends it and no line up to and including the first such line raises. */
  lemma ExecuteCompletesIff(s: State, mode: string, command: string, script: seq<string>)
    ensures Execute(s, mode, command, script).Completed?
        <==> exists k :: FirstEnd(Some(mode), script, k) && Survives(s.sendingText, script[..k + 1])
  {
    var s0 := s.(mode := Some(mode), waiting := true);
    if k :| FirstEnd(Some(mode), script, k) && Survives(s.sendingText, script[..k + 1]) {
      DriveCompletes(s0, script, k);
    } else {
      DriveStalls(s0, script);
    }
  }

  /** A wait in which no terminating line arrives safely never returns: either the
      script runs out or a prompt kills the listener first. */
  lemma DriveStalls(s: State, script: seq<string>)
    requires s.waiting
    requires forall k :: FirstEnd(s.mode, script, k) ==> !Survives(s.sendingText, script[..k + 1])
    ensures Drive(s, script).Hung?
  {
    var k := FirstEndIndex(s.mode, script);
    if k < |script| {
      var j :| 0 <= j < k + 1 && script[..k + 1][j] == PROMPT;
      DriveDies(s, script, FirstPrompt(script, j));
    } else if Survives(s.sendingText, script) {
      DriveExhausts(s, script);
    } else {
      var j :| 0 <= j < |script| && script[j] == PROMPT;
      DriveDies(s, script, j);
    }
  }

  /** The first prompt at or before `j`. */
  function FirstPrompt(script: seq<string>, j: int): (f: int)
    requires 0 <= j < |script| && script[j] == PROMPT
    ensures 0 <= f <= j && script[f] == PROMPT
    ensures forall i :: 0 <= i < f ==> script[i] != PROMPT
    decreases j
  {
    if exists i :: 0 <= i < j && script[i] == PROMPT then
      var i :| 0 <= i < j && script[i] == PROMPT;
      FirstPrompt(script, i)
    else j
  }

  /** One turn of the polling loop, at line `i` of the script. */
  lemma DriveUnfold(s: State, script: seq<string>, i: int)
    requires s.waiting && 0 <= i < |script|
    ensures Handle(s, script[i]).Raised? ==> Drive(s, script[i..]) == Hung(ListenerDied, s, [])
    ensures Handle(s, script[i]).Stepped? ==>
              Drive(s, script[i..]) == Prepend(Handle(s, script[i]).writes, Drive(Handle(s, script[i]).next, script[i + 1..]))
  {
    assert script[i..][0] == script[i] && script[i..][1..] == script[i + 1..];
  }

  /** `execute_mode` as a loop: the state and the writes advance one line at a time
      while `waiting` holds, exactly as the functional exchange describes. */
  method ExecuteMode(s: State, mode: string, command: string, script: seq<string>) returns (r: Exchange)
    ensures r == Execute(s, mode, command, script)
  {
    var st := s.(mode := Some(mode), waiting := true);
    var writes := [Issued(command)];
    var i := 0;
    while st.waiting
      invariant 0 <= i <= |script|
      invariant Prepend(writes, Drive(st, script[i..])) == Execute(s, mode, command, script)
      decreases |script| - i
    {
      if i == |script| {
        return Hung(ScriptExhausted, st, writes);
      }
      var step := Handle(st, script[i]);
      DriveUnfold(st, script, i);
      if step.Raised? {
        return Hung(ListenerDied, st, writes);
      }
      PrependPrepend(writes, step.writes, Drive(step.next, script[i + 1..]));
      st, writes, i := step.next, writes + step.writes, i + 1;
    }
    assert Drive(st, script[i..]) == Completed(st, [], script[i..]);
    return Completed(st, writes, script[i..]);
  }
}

=== FILE: handler.dfy ===
/** The proxy's correlation state and its per-line transition, `handle_incoming_message`
    in device_proxy.py. */
module Handler {
  import opened Wrappers
  import opened Text

  /** The mode tags the command sequences pass to `execute_mode`; the proxy compares
      its `mode` attribute against them with string equality. */
  const CHECK_OK: string := "CheckOk"
  const INCLUDE_OK: string := "IncludeOk"
  const WAIT_FOR_INPUT: string := "WaitForInput"
  const ANY_MESSAGE: string := "AnyMessage"

  /** The prompt the modem prints when it waits for an SMS body. */
  const PROMPT: string := ">"

  /** ASCII SUB (0x1A, Ctrl-Z): ends an SMS body and cancels a pending input prompt. */
  const SUB: char := 26 as char
  const ESCAPE: string := [SUB]

  /** The proxy's correlation attributes.
      `mode`: the last tag passed to `execute_mode`, `None` until the first exchange.
      `waiting`: true while a caller is blocked in `execute_mode`.
      `result`: the last verdict of a `CheckOk` exchange, `None` until there is one.
      `sendingText`: the text-sending flag; `None` while the attribute has never been
      assigned, which `__init__` does not do. */
  datatype State = State(mode: Option<string>, waiting: bool, result: Option<bool>, sendingText: Option<bool>)

  /** One payload handed to `send_command`: either by a command sequence, or the
      corrective SUB that the handler itself sends. */
  datatype Write = Issued(payload: string) | Escaped

  /** The effect of handling one line: the next state and the handler's own writes, or
      the AttributeError raised when a prompt is tested against a flag never assigned. */
  datatype Step = Stepped(next: State, writes: seq<Write>) | Raised

  /** The state right after `__init__` (device_proxy.py:10-22): no exchange has run and the
      flag was never assigned, so every line but a prompt is ignored and a prompt raises. */
  function Initial(): (r: State)
    ensures !r.waiting && r.mode.None? && r.result.None?
    ensures Handle(r, PROMPT).Raised?
    ensures forall line :: line != PROMPT ==> Handle(r, line) == Stepped(r, [])
  {
    State(None, false, None, None)
  }

  /** Reference definition: the lines that end the exchange under each mode. */
  predicate Terminates(mode: Option<string>, line: string)
  {
    || (mode == Some(CHECK_OK) && (line == "OK" || line == "ERROR"))
    || (mode == Some(INCLUDE_OK) && Contains(line, "OK"))
    || (mode == Some(WAIT_FOR_INPUT) && line == PROMPT)
    || mode == Some(ANY_MESSAGE)
  }

  /** Reference definition: the verdict after a terminating line. Only a `CheckOk`
      exchange records one; every other mode keeps whatever `result` held. */
  function Verdict(mode: Option<string>, line: string, previous: Option<bool>): Option<bool>
  {
    if mode == Some(CHECK_OK) then Some(line == "OK") else previous
  }

  /** Reference definition: the handler sends SUB for a prompt seen while the flag is false. */
  predicate Cancels(sendingText: Option<bool>, line: string)
  {
    line == PROMPT && sendingText == Some(false)
  }

  /** The mode dispatch of the handler (device_proxy.py:101-115): a line that ends the
      exchange clears `waiting` and records the verdict; any other line changes nothing. */
  function Dispatch(s: State, line: string): (t: State)
    ensures t.mode == s.mode && t.sendingText == s.sendingText
    ensures Terminates(s.mode, line) ==> t == s.(waiting := false, result := Verdict(s.mode, line, s.result))
    ensures !Terminates(s.mode, line) ==> t == s
  {
    if s.mode == Some(CHECK_OK) then
      if line == "OK" then s.(waiting := false, result := Some(true))
      else if line == "ERROR" then s.(waiting := false, result := Some(false))
      else s
    else if s.mode == Some(INCLUDE_OK) then
      if Contains(line, "OK") then s.(waiting := false) else s
    else if s.mode == Some(WAIT_FOR_INPUT) then
      if line == PROMPT then s.(waiting := false) else s
    else if s.mode == Some(ANY_MESSAGE) then
      s.(waiting := false)
    else
      s
  }

  /** The dispatch mode by mode: a `CheckOk` exchange ends only on "OK" or "ERROR", an
      `IncludeOk` one on any line containing "OK", a `WaitForInput` one only on the
      prompt, an `AnyMessage` one on every line, and any other mode on none. */
  lemma DispatchModes(s: State, line: string)
    ensures var t := Dispatch(s, line);
      s.mode == Some(CHECK_OK) ==>
        && (line == "OK" ==> !t.waiting && t.result == Some(true))
        && (line == "ERROR" ==> !t.waiting && t.result == Some(false))
        && (line != "OK" && line != "ERROR" ==> t == s)
    ensures var t := Dispatch(s, line);
      s.mode == Some(INCLUDE_OK) ==>
        && t.result == s.result
        && (Contains(line, "OK") ==> !t.waiting)
        && (!Contains(line, "OK") ==> t == s)
    ensures var t := Dispatch(s, line);
      s.mode == Some(WAIT_FOR_INPUT) ==>
        && t.result == s.result
        && (line == PROMPT ==> !t.waiting)
        && (line != PROMPT ==> t == s)
    ensures var t := Dispatch(s, line);
      s.mode == Some(ANY_MESSAGE) ==> !t.waiting && t.result == s.result
    ensures s.mode !in {Some(CHECK_OK), Some(INCLUDE_OK), Some(WAIT_FOR_INPUT), Some(ANY_MESSAGE)} ==>
      Dispatch(s, line) == s
  {
  }

  /** `handle_incoming_message` (device_proxy.py:96-115): first the stale-prompt check,
      whatever the mode, then the mode dispatch. */
  function Handle(s: State, line: string): (r: Step)
    ensures r.Raised? <==> line == PROMPT && s.sendingText.None?
    ensures r.Stepped? ==> r.next.mode == s.mode && r.next.sendingText == s.sendingText
    ensures r.Stepped? ==> r.writes == (if Cancels(s.sendingText, line) then [Escaped] else [])
    ensures r.Stepped? ==> r.next.waiting == (s.waiting && !Terminates(s.mode, line))
    ensures r.Stepped? && Terminates(s.mode, line) ==> r.next.result == Verdict(s.mode, line, s.result)
    ensures r.Stepped? && !Terminates(s.mode, line) ==> r.next == s
  {
    if line == PROMPT && s.sendingText.None? then
      Raised
    else
      var writes := if line == PROMPT && !s.sendingText.value then [Escaped] else [];
      Stepped(Dispatch(s, line), writes)
  }

  /** `set_text_sending_status` (device_proxy.py:117-119). */
  function SetTextSendingStatus(s: State, status: bool): (t: State)
    ensures t.sendingText == Some(status)
    ensures t.mode == s.mode && t.waiting == s.waiting && t.result == s.result
    ensures Handle(t, PROMPT).Stepped? && (Handle(t, PROMPT).writes == [Escaped] <==> !status)
  {
    s.(sendingText := Some(status))
  }
}

=== FILE: scenarios.dfy ===
/** Concrete exchanges over the proxy, each one stated for a fixed inbound script. */
module Scenarios {
  import opened Wrappers
  import opened Handler
  import opened Driver
  import opened Commands
  import opened Text

  /** A prompt reaching a freshly constructed proxy kills its listener: the flag was never
      assigned, so the health check never returns, whatever status lines preceded the
      prompt and even if "OK" follows it. */
  lemma FreshProxyPromptKillsListener(before: seq<string>, after: seq<string>)
    requires forall j :: 0 <= j < |before| ==> before[j] != "OK" && before[j] != "ERROR"
    ensures CheckDeviceStatus(Session(Initial(), before + [PROMPT] + after, []))
            == Blocked(ListenerDied, [Issued(AT)])
  {
    var script := before + [PROMPT] + after;
    var s0 := Initial().(mode := Some(CHECK_OK), waiting := true);
    assert script[|before|] == PROMPT;
    assert forall j :: 0 <= j < |before| ==> script[j] == before[j];
    DriveDies(s0, script, |before|);
  }

  /** Once the flag is false, the same stale prompt is cancelled with SUB and the health
      check still passes on the "OK" that follows. */
  lemma StalePromptCancelled(s: State)
    requires s.sendingText == Some(false)
    ensures CheckDeviceStatus(Session(s, [PROMPT, "OK", "RING"], []))
            == Done(Reply(Some(true), Session(s.(mode := Some(CHECK_OK), waiting := false, result := Some(true)),
                                              ["RING"], [Issued(AT), Escaped])))
  {
    var e := Execute(s, CHECK_OK, AT, [PROMPT, "OK", "RING"]);
    StalePromptExchange(s);
    assert [] + e.writes == e.writes;
  }

  lemma StalePromptExchange(s: State)
    requires s.sendingText == Some(false)
    ensures Execute(s, CHECK_OK, AT, [PROMPT, "OK", "RING"])
            == Completed(s.(mode := Some(CHECK_OK), waiting := false, result := Some(true)),
                         [Issued(AT), Escaped], ["RING"])
  {
    var s0 := s.(mode := Some(CHECK_OK), waiting := true);
    StalePromptWait(s0);
    assert [Issued(AT)] + [Escaped] == [Issued(AT), Escaped];
  }

  lemma StalePromptWait(s0: State)
    requires s0.sendingText == Some(false) && s0.mode == Some(CHECK_OK) && s0.waiting
    ensures Drive(s0, [PROMPT, "OK", "RING"]) == Completed(s0.(waiting := false, result := Some(true)), [Escaped], ["RING"])
  {
    var script := [PROMPT, "OK", "RING"];
    assert FirstEnd(Some(CHECK_OK), script, 1) by {
      assert !Terminates(Some(CHECK_OK), script[0]);
    }
    var ws := EscapesFor(s0.sendingText, script[..2]);
    assert ws == [Escaped] by {
      assert script[..2] == [PROMPT, "OK"];
      assert [PROMPT, "OK"][1..] == ["OK"] && ["OK"][1..] == [];
      assert "OK" != PROMPT;
      assert CountPrompts(["OK"]) == 0;
      assert CountPrompts(script[..2]) == 1;
      assert Repeat(Escaped, 1) == [Escaped];
    }
    assert script[2..] == ["RING"];
    assert Verdict(Some(CHECK_OK), script[1], s0.result) == Some(true);
    DriveCompletes(s0, script, 1);
  }

  /** A status line that merely contains "OK" does not end a `CheckOk` exchange (which
      then never returns), while it does end an `IncludeOk` one, leaving `result` alone. */
  lemma ContainedOkOnlyEndsIncludeOk(s: State)
    ensures CheckDeviceStatus(Session(s, [STATUS_LINE], [])).Blocked?
    ensures CheckSignal(Session(s, [STATUS_LINE], []))
            == Done(Session(s.(mode := Some(INCLUDE_OK), waiting := false), [], [Issued(AT_CSQ)]))
  {
    ContainedOkExchanges(s);
    var e := Execute(s, INCLUDE_OK, AT_CSQ, [STATUS_LINE]);
    assert [] + e.writes == e.writes;
  }

  const STATUS_LINE: string := "+CSQ: OK"

  lemma ContainedOkExchanges(s: State)
    ensures Execute(s, CHECK_OK, AT, [STATUS_LINE]).Hung?
    ensures Execute(s, INCLUDE_OK, AT_CSQ, [STATUS_LINE])
            == Completed(s.(mode := Some(INCLUDE_OK), waiting := false), [Issued(AT_CSQ)], [])
  {
    var line := STATUS_LINE;
    assert line != PROMPT by {
      assert |line| != |PROMPT|;
    }
    assert Survives(s.sendingText, [line]) && [line][..1] == [line];
    assert !Terminates(Some(CHECK_OK), line);
    DriveExhausts(s.(mode := Some(CHECK_OK), waiting := true), [line]);
    assert Terminates(Some(INCLUDE_OK), line) by {
      assert OccursAt(line, "OK", 6);
      ContainsIff(line, "OK");
    }
    assert FirstEnd(Some(INCLUDE_OK), [line], 0);
    DriveCompletes(s.(mode := Some(INCLUDE_OK), waiting := true), [line], 0);
    assert [line][1..] == [];
  }

  /** A full `send_message` on a freshly constructed proxy: the health check, text mode and
      the character set are each answered "OK", the number by the prompt, and the body by
      a status read that contains "OK". It returns True, having issued the five payloads in
      order, and leaves the read after them for the next exchange. */
  lemma SendMessageDelivers(number: string, message: string)
    ensures var r := SendMessage(Session(Initial(), DELIVERY, []), number, message);
            && r.Done? && r.value.value
            && r.value.session.inbox == ["tail"]
            && IssuedPayloads(r.value.session.trace)
               == [AT_CMGS_TEST, AT_CMGF_TEXT, AT_CSCS_GSM, SetNumber(number), Body(message)]
  {
    var ses := Session(Initial(), DELIVERY, []);
    assert Contains(DELIVERY[4], "OK") by {
      assert OccursAt(DELIVERY[4], "OK", 9);
      ContainsIff(DELIVERY[4], "OK");
    }
    DeliveredOn(ses, number, message);
    assert DELIVERY[5..] == ["tail"];
    assert IssuedPayloads([]) == [];
  }

  const DELIVERY: seq<string> := ["OK", "OK", "OK", PROMPT, "+CMGS: 1 OK", "tail"]

  /** `send_message` over any inbox that answers its five exchanges in turn. */
  lemma DeliveredOn(ses: Session, number: string, message: string)
    requires |ses.inbox| >= 5
    requires ses.inbox[0] == "OK" && ses.inbox[1] == "OK" && ses.inbox[2] == "OK"
    requires ses.inbox[3] == PROMPT && Contains(ses.inbox[4], "OK")
    ensures var r := SendMessage(ses, number, message);
            && r.Done? && r.value.value
            && r.value.session.inbox == ses.inbox[5..]
            && IssuedPayloads(r.value.session.trace) == IssuedPayloads(ses.trace)
               + [AT_CMGS_TEST, AT_CMGF_TEXT, AT_CSCS_GSM, SetNumber(number), Body(message)]
  {
    AnsweredAtOnce(ses, CHECK_OK, AT_CMGS_TEST);
    var check := Exec(ses, CHECK_OK, AT_CMGS_TEST).value;
    assert check.session.inbox[..2] == ["OK", "OK"] by {
      assert check.session.inbox == ses.inbox[1..];
    }
    ConfiguredOnOks(check.session);
    var configured := Configure(check.session).value;
    assert configured.inbox == ses.inbox[3..];
    SubmittedOnPrompt(configured, number, message);
    var sent := Submit(configured, number, message).value;
    assert SendMessage(ses, number, message) == Done(Reply(true, sent));
  }

  /** An exchange whose first read ends it, and cannot raise, returns at once. */
  lemma AnsweredAtOnce(ses: Session, mode: string, command: string)
    requires |ses.inbox| > 0 && Terminates(Some(mode), ses.inbox[0])
    requires ses.state.sendingText.Some? || ses.inbox[0] != PROMPT
    ensures var r := Exec(ses, mode, command);
            && r.Done?
            && r.value.value == Verdict(Some(mode), ses.inbox[0], ses.state.result)
            && r.value.session.inbox == ses.inbox[1..]
  {
    assert FirstEnd(Some(mode), ses.inbox, 0);
    assert Survives(ses.state.sendingText, ses.inbox[..1]);
    ExecCompletes(ses, mode, command);
  }

  lemma ConfiguredOnOks(ses: Session)
    requires |ses.inbox| >= 2 && ses.inbox[..2] == ["OK", "OK"]
    ensures Configure(ses).Done? && Configure(ses).value.inbox == ses.inbox[2..]
  {
    assert ses.inbox[0] == ses.inbox[..2][0] == "OK" && ses.inbox[1] == ses.inbox[..2][1] == "OK";
    AnsweredAtOnce(ses, CHECK_OK, AT_CMGF_TEXT);
    var textMode := Exec(ses, CHECK_OK, AT_CMGF_TEXT).value.session;
    assert textMode.inbox[0] == "OK";
    AnsweredAtOnce(textMode, CHECK_OK, AT_CSCS_GSM);
    assert textMode.inbox[1..] == ses.inbox[2..];
  }

  lemma SubmittedOnPrompt(ses: Session, number: string, message: string)
    requires |ses.inbox| >= 2 && ses.inbox[0] == PROMPT && Contains(ses.inbox[1], "OK")
    ensures Submit(ses, number, message).Done? && Submit(ses, number, message).value.inbox == ses.inbox[2..]
  {
    var raised := SetFlag(ses, true);
    AnsweredAtOnce(raised, WAIT_FOR_INPUT, SetNumber(number));
    var numbered := Exec(raised, WAIT_FOR_INPUT, SetNumber(number)).value.session;
    assert numbered.inbox[0] == ses.inbox[1];
    AnsweredAtOnce(numbered, INCLUDE_OK, Body(message));
    assert numbered.inbox[1..] == ses.inbox[2..];
  }

  /** A full `read_messages` on a freshly constructed proxy: text mode and the character
      set are answered "OK", the own-number query by a read of several lines that ends in
      "OK", and the listing and message 1 by "OK". It returns after issuing its five
      payloads in order, with the verdict of the last exchange, true, in `result`. */
  lemma MessagesRead()
    ensures var r := ReadMessages(Session(Initial(), READING, []));
            && r.Done?
            && r.value.inbox == []
            && r.value.state.result == Some(true)
            && IssuedPayloads(r.value.trace) == [AT_CMGF_TEXT, AT_CSCS_GSM, AT_CNUM, AT_CMGL_ALL, AT_CMGR_1]
  {
    assert Contains(NUMBER_READ, "OK") by {
      assert OccursAt(NUMBER_READ, "OK", |NUMBER_READ| - 2);
      ContainsIff(NUMBER_READ, "OK");
    }
    MessagesReadOn(Session(Initial(), READING, []));
    assert READING[5..] == [];
    assert IssuedPayloads([]) == [];
  }

  const NUMBER_READ: string := "+CNUM: \"\",\"+15550100\",145\r\n\r\nOK"
  const READING: seq<string> := ["OK", "OK", NUMBER_READ, "OK", "OK"]

  /** `read_messages` over any inbox that answers its five exchanges in turn. */
  lemma MessagesReadOn(ses: Session)
    requires |ses.inbox| >= 5
    requires ses.inbox[0] == "OK" && ses.inbox[1] == "OK" && Contains(ses.inbox[2], "OK")
    requires ses.inbox[3] == "OK" && ses.inbox[4] == "OK"
    ensures var r := ReadMessages(ses);
            && r.Done?
            && r.value.inbox == ses.inbox[5..]
            && r.value.state.result == Some(true)
            && IssuedPayloads(r.value.trace) == IssuedPayloads(ses.trace)
               + [AT_CMGF_TEXT, AT_CSCS_GSM, AT_CNUM, AT_CMGL_ALL, AT_CMGR_1]
  {
    assert ses.inbox[..2] == ["OK", "OK"];
    ConfiguredOnOks(ses);
    var configured := Configure(ses).value;
    assert configured.inbox == ses.inbox[2..];
    assert configured.inbox[0] != PROMPT by {
      assert !Contains(PROMPT, "OK");
    }
    AnsweredAtOnce(configured, INCLUDE_OK, AT_CNUM);
    var ownNumber := Exec(configured, INCLUDE_OK, AT_CNUM).value.session;
    assert ownNumber.inbox == ses.inbox[3..];
    AnsweredAtOnce(ownNumber, CHECK_OK, AT_CMGL_ALL);
    var list := Exec(ownNumber, CHECK_OK, AT_CMGL_ALL).value.session;
    assert list.inbox == ses.inbox[4..];
    AnsweredAtOnce(list, CHECK_OK, AT_CMGR_1);
    assert Verdict(Some(CHECK_OK), list.inbox[0], list.state.result) == Some(true);
    var read := Exec(list, CHECK_OK, AT_CMGR_1).value.session;
    assert read.inbox == ses.inbox[5..];
    assert Inspect(configured) == Done(read);
    assert ReadMessages(ses) == Done(read);
  }

  /** A message listing arrives as one read that holds several lines, so it is not "OK"
      and does not end the `CheckOk` exchange of the listing step: `read_messages` never
      returns, and stops with the listing as the last payload it issued. */
  lemma ListingNeverEndsList()
    ensures var r := ReadMessages(Session(Initial(), ["OK", "OK", "OK", LISTING_READ], []));
            && r.Blocked?
            && IssuedPayloads(r.trace) == [AT_CMGF_TEXT, AT_CSCS_GSM, AT_CNUM, AT_CMGL_ALL]
  {
    ListingStopsOn(Session(Initial(), ["OK", "OK", "OK", LISTING_READ], []));
    assert IssuedPayloads([]) == [];
  }

  /** `read_messages` over any inbox that answers the first three exchanges and then
      holds only a listing. */
  lemma ListingStopsOn(ses: Session)
    requires |ses.inbox| == 4 && ses.inbox[..3] == ["OK", "OK", "OK"] && ses.inbox[3] == LISTING_READ
    ensures var r := ReadMessages(ses);
            && r.Blocked?
            && IssuedPayloads(r.trace) == IssuedPayloads(ses.trace) + [AT_CMGF_TEXT, AT_CSCS_GSM, AT_CNUM, AT_CMGL_ALL]
  {
    assert ses.inbox[..2] == ["OK", "OK"];
    ConfiguredOnOks(ses);
    var configured := Configure(ses).value;
    assert configured.inbox == ses.inbox[2..];
    assert configured.inbox[0] == ses.inbox[..3][2] == "OK";
    AnsweredAtOnce(configured, INCLUDE_OK, AT_CNUM);
    var ownNumber := Exec(configured, INCLUDE_OK, AT_CNUM).value.session;
    assert ownNumber.inbox == [LISTING_READ];
    ListingHangs(ownNumber);
    var list := Exec(ownNumber, CHECK_OK, AT_CMGL_ALL);
    assert Inspect(configured) == Blocked(list.stall, list.trace) by {
      InspectOutcome(configured);
    }
    assert ReadMessages(ses) == Blocked(list.stall, list.trace) by {
      ReadMessagesOutcome(ses);
    }
    var c := IssuedPayloads(ses.trace);
    var configuring := c + [AT_CMGF_TEXT, AT_CSCS_GSM];
    assert IssuedPayloads(configured.trace) == configuring;
    assert IssuedPayloads(ownNumber.trace) == configuring + [AT_CNUM];
    assert IssuedPayloads(list.trace) == configuring + [AT_CNUM] + [AT_CMGL_ALL];
    AppendFour(c, AT_CMGF_TEXT, AT_CSCS_GSM, AT_CNUM, AT_CMGL_ALL);
  }

  const LISTING_READ: string := "+CMGL: 1,\"REC UNREAD\",\"+15550100\"\r\nhello\r\n\r\nOK"

  lemma AppendFour<T>(c: seq<T>, a: T, b: T, d: T, e: T)
    ensures c + [a, b] + [d] + [e] == c + [a, b, d, e]
  {
  }

  /** A `CheckOk` exchange whose only read is a listing never returns. */
  lemma ListingHangs(ses: Session)
    requires ses.inbox == [LISTING_READ]
    ensures Exec(ses, CHECK_OK, AT_CMGL_ALL).Blocked?
  {
    assert !Terminates(Some(CHECK_OK), LISTING_READ) by {
      assert |LISTING_READ| != |"OK"| && |LISTING_READ| != |"ERROR"|;
    }
    ExecCompletes(ses, CHECK_OK, AT_CMGL_ALL);
  }
}

=== FILE: text.dfy ===
/** Text helpers: the substring test that Python spells `pat in text`. */
module Text {

  /** `pat` occurs in `text` starting at position `i`. */
  predicate OccursAt(text: string, pat: string, i: int)
  {
    0 <= i && i + |pat| <= |text| && text[i..i + |pat|] == pat
  }

  /** Python's `pat in text` on strings, as a left-to-right scan. */
  function Contains(text: string, pat: string): bool
    decreases |text|
  {
    if |text| < |pat| then false
    else if text[..|pat|] == pat then true
    else Contains(text[1..], pat)
  }

  /** The scan finds `pat` exactly when it occurs somewhere in `text`. */
  lemma {:induction false} ContainsIff(text: string, pat: string)
    ensures Contains(text, pat) <==> exists i :: OccursAt(text, pat, i)
    decreases |text|
  {
    if |text| < |pat| {
    } else if text[..|pat|] == pat {
      assert OccursAt(text, pat, 0);
    } else {
      ContainsIff(text[1..], pat);
      if Contains(text[1..], pat) {
        var i :| OccursAt(text[1..], pat, i);
        assert text[1..][i..i + |pat|] == text[i + 1..i + 1 + |pat|];
        assert OccursAt(text, pat, i + 1);
      } else {
        forall i | OccursAt(text, pat, i)
          ensures false
        {
          assert i != 0;
          assert text[1..][i - 1..i - 1 + |pat|] == text[i..i + |pat|];
          assert OccursAt(text[1..], pat, i - 1);
        }
      }
    }
  }
}

=== FILE: wrappers.dfy ===
/** The optional value used for the proxy's Python attributes that may hold `None`
    (or, for the text-sending flag, may not have been assigned at all). */
module Wrappers {

  datatype Option<+T> = None | Some(value: T)
}
